=== FILE: README.md ===
# ListVideoPlayer playback session, modelled in Dafny

ListVideoPlayer plays one video at a time inside a scrolling list. The
`VideoPlayerManager` singleton is the session controller. It owns one player
instance. Release drops that instance and `getInstance` recreates it. The
manager remembers which list item owns playback (the owner hash, `-1` for
none) and which url it plays. It turns every UI-state change into a message
for its observers. It is also the play callback of its player.
`AbsBaseVideoPlayer` holds the player state and binds the player to a
recycled `TextureView` and its `SurfaceTexture`. `MediaVideoPlayer` drives
the platform media engine and reports the engine's events back to the
manager.

The model has five modules:

- `PlayerTypes` (`player_types.dfy`): the seven playback states, the three
  message kinds (`UIState`, `Duration`, `BackPressed`), the calls a player
  makes on its play callback, and the effects a player has on the engine and
  on views.
- `AbsBasePlayer` (`abs_base_video_player.dfy`): the `isPlaying` rule and
  the guard that decides whether a new surface starts the deferred prepare.
- `MediaPlayer` (`media_video_player.dfy`): the class `MediaVideoPlayer`.
  It keeps the fields of `AbsBaseVideoPlayer` that the behaviour depends on:
  `mState`, `mUrl`, whether `mPlayCallback` is set, `mTextureView` and
  `mSurfaceTexture`. The engine fields of `MediaVideoPlayer` (`mMediaPlayer`,
  `mMediaHandlerThread`, `mMediaHandler`) and `mEnableLog` are not kept.
  Each base-class method that
  `MediaVideoPlayer` overrides appears twice: the base version carries a
  `Base` prefix, and the override calls it as `super` does. What the player
  asks of the engine or of a view is appended to `effects`, in order. The
  engine listeners return the ordered calls they make on the play callback.
- `Session` (`session.dfy`): the manager's behaviour as values. A
  `Snapshot` holds what callers and observers see. `Step` applies one
  operation or engine callback. `Apply` is a control call made through
  `getInstance`, or a call from the player, which reaches the manager
  directly (`Receive`). `Run` applies a sequence of calls. The lemmas about whole
  call sequences live here.
- `Manager` (`video_player_manager.dfy`): the class `VideoPlayerManager`.
  Each method that has a matching `Session.Op` ensures `Snap() ==
  Step(old(Snap()), op)`: the control methods, the play-callback methods,
  `OnBackPressed` and `SetScreenState`. The methods that drive the player's
  engine listeners (`EnginePrepared`, `EngineSeekComplete`,
  `EngineCompletion`, `EngineFailed`) relate `Snap()` to the steps of the
  calls the player makes. The view methods (`SetTextureView`,
  `RemoveTextureView`) and `BindPlayerView` have no `Op`; they state the new
  fields directly. Every method also states the new state, the messages
  delivered and the player's effects.

Observers are modelled by the sequence `messages`: delivering a message
appends it. The engine's current position and duration are parameters. So
is the cache proxy's `getProxyUrl`, passed to `Start` as a function, and so
is whether the bound view sits in a parent view when `stop`, `release` or
`removeTextureView` runs (`TextureView.getParent() != null`).

## Model

| member | source | states |
|---|---|---|
| `AbsBasePlayer.AtEndNeverPlaying` | listvideoplayer/src/main/java/com/kince/listvideo/player/player/AbsBaseVideoPlayer.java:102-109 | at or past the end of the stream the player is not playing, whatever its state |
| `MediaPlayer.TwoSurfacesPrepareOnce` | listvideoplayer/src/main/java/com/kince/listvideo/player/player/AbsBaseVideoPlayer.java:42-50 | of two surfaces that become available in a row only the first can queue the prepare: the second is held afterwards and adds no prepare |
| `MediaPlayer.ClearingReleasesFirst` | listvideoplayer/src/main/java/com/kince/listvideo/player/player/MediaVideoPlayer.java:53-58 | clearing the view releases the held surface before anything else, and only once |
| `MediaPlayer.BindingNeverReleases` | listvideoplayer/src/main/java/com/kince/listvideo/player/player/MediaVideoPlayer.java:53-58 | binding a non-null view never releases a surface, and registers the player on the new view last |
| `MediaPlayer.MediaVideoPlayer.constructor` | listvideoplayer/src/main/java/com/kince/listvideo/player/player/AbsBaseVideoPlayer.java:22-29 | a new player is in state NORMAL with no url, no callback, no view, no surface and no effects |
| `MediaPlayer.MediaVideoPlayer.SetPlayCallback` | listvideoplayer/src/main/java/com/kince/listvideo/player/player/AbsBaseVideoPlayer.java:117-122 | afterwards the player has its callback, nothing else changes |
| `MediaPlayer.MediaVideoPlayer.SetPlayerState` | listvideoplayer/src/main/java/com/kince/listvideo/player/player/MediaVideoPlayer.java:156-158 | the state becomes the given one, nothing else changes |
| `MediaPlayer.MediaVideoPlayer.GetPlayerState` | listvideoplayer/src/main/java/com/kince/listvideo/player/player/MediaVideoPlayer.java:161-163 | returns the state last set, so set-then-get gives back the value set |
| `MediaPlayer.MediaVideoPlayer.Start` | listvideoplayer/src/main/java/com/kince/listvideo/player/player/MediaVideoPlayer.java:112-114 | only the url is stored: state unchanged, no prepare |
| `MediaPlayer.MediaVideoPlayer.Play` | listvideoplayer/src/main/java/com/kince/listvideo/player/player/MediaVideoPlayer.java:117-119 | the engine is started, nothing else changes |
| `MediaPlayer.MediaVideoPlayer.Resume` | listvideoplayer/src/main/java/com/kince/listvideo/player/player/MediaVideoPlayer.java:132-134 | the engine is started, nothing else changes |
| `MediaPlayer.MediaVideoPlayer.Pause` | listvideoplayer/src/main/java/com/kince/listvideo/player/player/MediaVideoPlayer.java:122-126 | the engine is paused exactly when the state is PLAYING; otherwise nothing happens |
| `MediaPlayer.MediaVideoPlayer.Stop` | listvideoplayer/src/main/java/com/kince/listvideo/player/player/MediaVideoPlayer.java:137-139 | one engine release is queued, nothing else changes |
| `MediaPlayer.MediaVideoPlayer.Release` | listvideoplayer/src/main/java/com/kince/listvideo/player/player/MediaVideoPlayer.java:151-153 | one engine release is queued, nothing else changes |
| `MediaPlayer.MediaVideoPlayer.SeekTo` | listvideoplayer/src/main/java/com/kince/listvideo/player/player/MediaVideoPlayer.java:176-178 | the seek to the given position is forwarded to the engine, nothing else changes |
| `MediaPlayer.MediaVideoPlayer.Prepare` | listvideoplayer/src/main/java/com/kince/listvideo/player/player/MediaVideoPlayer.java:107-109 | one prepare is queued for the media thread, nothing else changes |
| `MediaPlayer.MediaVideoPlayer.BaseSetTextureView` | listvideoplayer/src/main/java/com/kince/listvideo/player/player/AbsBaseVideoPlayer.java:132-144 | the previous view's listener is cleared, the surface is forgotten, the new view is stored and listened to only when non-null |
| `MediaPlayer.MediaVideoPlayer.SetTextureView` | listvideoplayer/src/main/java/com/kince/listvideo/player/player/MediaVideoPlayer.java:53-58 | as the base version, but clearing the view first releases the held surface, if any |
| `MediaPlayer.MediaVideoPlayer.BaseOnSurfaceTextureAvailable` | listvideoplayer/src/main/java/com/kince/listvideo/player/player/AbsBaseVideoPlayer.java:42-50 | prepare is queued exactly when no surface was held and the state is NORMAL or LOADING; the new surface is held afterwards |
| `MediaPlayer.MediaVideoPlayer.OnSurfaceTextureAvailable` | listvideoplayer/src/main/java/com/kince/listvideo/player/player/MediaVideoPlayer.java:61-68 | the surface is handed to the engine, then the base rule applies |
| `MediaPlayer.MediaVideoPlayer.OnSurfaceTextureSizeChanged` | listvideoplayer/src/main/java/com/kince/listvideo/player/player/AbsBaseVideoPlayer.java:61-65 | the player is unchanged |
| `MediaPlayer.MediaVideoPlayer.OnSurfaceTextureUpdated` | listvideoplayer/src/main/java/com/kince/listvideo/player/player/AbsBaseVideoPlayer.java:90-94 | the player is unchanged |
| `MediaPlayer.MediaVideoPlayer.OnSurfaceTextureDestroyed` | listvideoplayer/src/main/java/com/kince/listvideo/player/player/AbsBaseVideoPlayer.java:76-81 | always returns false (the view does not release the surface) and changes nothing |
| `MediaPlayer.MediaVideoPlayer.OnPrepared` | listvideoplayer/src/main/java/com/kince/listvideo/player/player/MediaVideoPlayer.java:233-239 | with a callback: the duration, then PLAYING, is reported; the engine is started in every case |
| `MediaPlayer.MediaVideoPlayer.OnSeekComplete` | listvideoplayer/src/main/java/com/kince/listvideo/player/player/MediaVideoPlayer.java:201-205 | PLAYING is reported, once, exactly when a callback is set and the player is playing |
| `MediaPlayer.MediaVideoPlayer.OnCompletion` | listvideoplayer/src/main/java/com/kince/listvideo/player/player/MediaVideoPlayer.java:213-217 | with a callback, completion is reported once; without one, nothing |
| `MediaPlayer.MediaVideoPlayer.OnError` | listvideoplayer/src/main/java/com/kince/listvideo/player/player/MediaVideoPlayer.java:220-225 | with a callback, one error carrying the engine's codes is reported; the result is always false |
| `Session.Instance` | listvideoplayer/src/main/java/com/kince/listvideo/player/player/VideoPlayerManager.java:70-76 | after getInstance a player always exists |
| `Session.ApplyAppendsAtMostOne` | listvideoplayer/src/main/java/com/kince/listvideo/player/player/VideoPlayerManager.java:342-345 | every call keeps the earlier messages and delivers at most one new one |
| `Session.ObservedAfter` | listvideoplayer/src/main/java/com/kince/listvideo/player/player/VideoPlayerManager.java:327-330 | a UI-state message decides the state observers believe; duration and back-pressed messages leave it alone |
| `Session.ApplyKeepsSync` | listvideoplayer/src/main/java/com/kince/listvideo/player/player/VideoPlayerManager.java:327-330 | every call except release leaves the observers believing the player's actual state |
| `Session.HaltedNeverPlaying` | listvideoplayer/src/main/java/com/kince/listvideo/player/player/AbsBaseVideoPlayer.java:102-109 | after stop, release, an engine error, completion, or pausing a PLAYING player, isPlaying is false for every position and duration |
| `Session.LateCallback` | listvideoplayer/src/main/java/com/kince/listvideo/player/player/VideoPlayerManager.java:294-330 | a player call reaching a manager without a player creates no player and changes nothing, except that a duration is still announced |
| `Session.ReleaseIsSilent` | listvideoplayer/src/main/java/com/kince/listvideo/player/player/VideoPlayerManager.java:193-202 | release sets NORMAL and drops the player without a message, so observers that heard of another state are left behind |
| `Session.StopTwice` | listvideoplayer/src/main/java/com/kince/listvideo/player/player/VideoPlayerManager.java:183-191 | a second stop leaves the same cleared NORMAL session and adds exactly one more NORMAL message, for no owner |
| `Session.ReleaseThenInstance` | listvideoplayer/src/main/java/com/kince/listvideo/player/player/VideoPlayerManager.java:193-202 | after release there is no player; the next getInstance has a NORMAL player, no owner, no url, normal screen, same messages |
| `Session.RunAppendsOnly` | listvideoplayer/src/main/java/com/kince/listvideo/player/player/VideoPlayerManager.java:342-345 | over any sequence of calls the messages are only appended, at most one per call |
| `Session.OwnerStable` | listvideoplayer/src/main/java/com/kince/listvideo/player/player/VideoPlayerManager.java:155-158 | without start, stop or release the owner hash and url never change |
| `Session.UnownedUntilStart` | listvideoplayer/src/main/java/com/kince/listvideo/player/player/VideoPlayerManager.java:252-254 | once cleared, no list item owns playback until the next start, whatever else is called |
| `Session.RunKeepsSync` | listvideoplayer/src/main/java/com/kince/listvideo/player/player/VideoPlayerManager.java:309-312 | over any release-free sequence of calls, observers always believe the player's actual state |
| `Session.StartThenPrepared` | listvideoplayer/src/main/java/com/kince/listvideo/player/player/MediaVideoPlayer.java:233-239 | start followed by the prepared callbacks: the state is PLAYING and observers hear LOADING, the duration, then PLAYING, for the caller's url and owner |
| `Session.PreparedAfterRelease` | listvideoplayer/src/main/java/com/kince/listvideo/player/player/VideoPlayerManager.java:193-202 | the engine finishing its prepare after release announces the duration for no owner and brings no player back |
| `Session.PreparedAfterStop` | listvideoplayer/src/main/java/com/kince/listvideo/player/player/VideoPlayerManager.java:183-191 | the engine finishing its prepare after stop brings playback back: the player is PLAYING again, announced for no owner and no url, after the NORMAL message of the stop |
| `Session.SeekWhilePlaying` | listvideoplayer/src/main/java/com/kince/listvideo/player/player/VideoPlayerManager.java:283-288 | a seek while playing shows buffering; the seek completing short of the end brings back PLAYING, and one completing at or past the end leaves PLAYING_BUFFERING_START with no message |
| `Session.PauseThenResume` | listvideoplayer/src/main/java/com/kince/listvideo/player/player/VideoPlayerManager.java:166-181 | resume undoes pause: same session, with PAUSE and PLAYING messages added |
| `Manager.VideoPlayerManager.constructor` | listvideoplayer/src/main/java/com/kince/listvideo/player/player/VideoPlayerManager.java:50-54 | a new manager has a fresh NORMAL player reporting to it, no owner, no url, normal screen, no messages |
| `Manager.VideoPlayerManager.EnsurePlayer` | listvideoplayer/src/main/java/com/kince/listvideo/player/player/VideoPlayerManager.java:70-76 | an existing player is kept; a missing one is replaced by a fresh player in its initial state |
| `Manager.VideoPlayerManager.ChangeUIState` | listvideoplayer/src/main/java/com/kince/listvideo/player/player/VideoPlayerManager.java:327-330 | sets the player's state, then delivers one UI-state message with the current owner and url |
| `Manager.VideoPlayerManager.Start` | listvideoplayer/src/main/java/com/kince/listvideo/player/player/VideoPlayerManager.java:143-153 | state LOADING, url and owner are the caller's, exactly one LOADING message; the player gets the proxy url only when caching is on |
| `Manager.VideoPlayerManager.BindPlayerView` | listvideoplayer/src/main/java/com/kince/listvideo/player/player/VideoPlayerManager.java:155-158 | stores url and owner hash, nothing else |
| `Manager.VideoPlayerManager.Play` | listvideoplayer/src/main/java/com/kince/listvideo/player/player/VideoPlayerManager.java:160-164 | the engine starts, the state becomes PLAYING, one message |
| `Manager.VideoPlayerManager.Resume` | listvideoplayer/src/main/java/com/kince/listvideo/player/player/VideoPlayerManager.java:166-171 | from PAUSE: PLAYING, one message, engine started; from any other state nothing changes |
| `Manager.VideoPlayerManager.Pause` | listvideoplayer/src/main/java/com/kince/listvideo/player/player/VideoPlayerManager.java:173-181 | from PLAYING: PAUSE, one message, engine paused; from any other state nothing changes |
| `Manager.VideoPlayerManager.Stop` | listvideoplayer/src/main/java/com/kince/listvideo/player/player/VideoPlayerManager.java:183-191 | NORMAL with one message carrying the owner and url from before the clear; engine release queued; view detached and its surface released if it has a parent when stop reaches removeTextureView (after the NORMAL message), otherwise view and surface kept; owner, url and screen cleared |
| `Manager.VideoPlayerManager.Release` | listvideoplayer/src/main/java/com/kince/listvideo/player/player/VideoPlayerManager.java:193-202 | the dropped player is NORMAL, its view detached and surface released exactly when the view has a parent at the time of the call, and an engine release queued; no message; the player is gone and the session cleared |
| `Manager.VideoPlayerManager.RemoveTextureView` | listvideoplayer/src/main/java/com/kince/listvideo/player/player/VideoPlayerManager.java:103-112 | a view that has a parent at the time of the call is cleared from the player, which releases its surface first; otherwise nothing changes |
| `Manager.VideoPlayerManager.SetTextureView` | listvideoplayer/src/main/java/com/kince/listvideo/player/player/VideoPlayerManager.java:114-119 | the player binds the given view as its setTextureView does |
| `Manager.VideoPlayerManager.SeekTo` | listvideoplayer/src/main/java/com/kince/listvideo/player/player/VideoPlayerManager.java:283-288 | PLAYING_BUFFERING_START with one message exactly when the player is playing, otherwise no change; the seek always reaches the engine |
| `Manager.VideoPlayerManager.OnError` | listvideoplayer/src/main/java/com/kince/listvideo/player/player/VideoPlayerManager.java:295-302 | engine release queued, state ERROR, one message |
| `Manager.VideoPlayerManager.OnComplete` | listvideoplayer/src/main/java/com/kince/listvideo/player/player/VideoPlayerManager.java:305-307 | state AUTO_COMPLETE, one message |
| `Manager.VideoPlayerManager.OnPlayStateChanged` | listvideoplayer/src/main/java/com/kince/listvideo/player/player/VideoPlayerManager.java:310-312 | the given state, one message |
| `Manager.VideoPlayerManager.OnDurationChanged` | listvideoplayer/src/main/java/com/kince/listvideo/player/player/VideoPlayerManager.java:315-317 | one duration message for the current owner and url; the state is unchanged |
| `Manager.VideoPlayerManager.Deliver` | listvideoplayer/src/main/java/com/kince/listvideo/player/player/VideoPlayerManager.java:294-317 | a call from the player reaches the matching callback method and performs its step; only an error touches the engine, queuing one release |
| `Manager.VideoPlayerManager.EnginePrepared` | listvideoplayer/src/main/java/com/kince/listvideo/player/player/MediaVideoPlayer.java:233-239 | the prepared player's calls reach the manager in order: state PLAYING, the duration and PLAYING messages, the engine started |
| `Manager.VideoPlayerManager.EngineSeekComplete` | listvideoplayer/src/main/java/com/kince/listvideo/player/player/MediaVideoPlayer.java:201-205 | a finished seek performs the PLAYING step exactly when the player is playing; otherwise nothing changes |
| `Manager.VideoPlayerManager.EngineCompletion` | listvideoplayer/src/main/java/com/kince/listvideo/player/player/MediaVideoPlayer.java:213-217 | the end of the stream performs the completion step on the manager |
| `Manager.VideoPlayerManager.EngineFailed` | listvideoplayer/src/main/java/com/kince/listvideo/player/player/MediaVideoPlayer.java:220-225 | an engine error performs the error step, queues one engine release, and is reported as not handled |
| `Manager.VideoPlayerManager.OnBackPressed` | listvideoplayer/src/main/java/com/kince/listvideo/player/player/VideoPlayerManager.java:256-263 | returns true, with one back-pressed message, exactly when the screen is not normal; otherwise false and nothing changes |
| `Manager.VideoPlayerManager.SetScreenState` | listvideoplayer/src/main/java/com/kince/listvideo/player/player/VideoPlayerManager.java:332-334 | stores the screen state, nothing else |
| `Manager.VideoPlayerManager.HasViewPlaying` | listvideoplayer/src/main/java/com/kince/listvideo/player/player/VideoPlayerManager.java:252-254 | true exactly when some list item owns playback (hash is not -1) |
| `Manager.VideoPlayerManager.IsViewPlaying` | listvideoplayer/src/main/java/com/kince/listvideo/player/player/VideoPlayerManager.java:275-277 | true exactly when the given hash is the owner hash |
| `Manager.VideoPlayerManager.IsPlaying` | listvideoplayer/src/main/java/com/kince/listvideo/player/player/VideoPlayerManager.java:265-267 | true exactly when the state is PLAYING or PLAYING_BUFFERING_START and position < duration |
| `Manager.VideoPlayerManager.GetState` | listvideoplayer/src/main/java/com/kince/listvideo/player/player/VideoPlayerManager.java:290-292 | the player's state |
| `Manager.VideoPlayerManager.GetVideoUrl` | listvideoplayer/src/main/java/com/kince/listvideo/player/player/VideoPlayerManager.java:139-141 | the caller's url, not the proxy url |

## Left out

- The media thread (`MediaHandler`, `MSG_PREPARE`, `MSG_RELEASE`) and the platform `MediaPlayer`. Prepare, stop and release are recorded as queued requests in the player's effects. What the thread later does with them is asynchronous engine work and is not modelled.
- `Session.Run`, `Session.RunKeepsSync` and the other lemmas over call sequences treat each call as one atomic step. In the source the engine is created, and its listeners registered, on the media thread, so `onPrepared`, `onSeekComplete`, `onCompletion` and `onError` reach the manager's callbacks on that thread, with nothing synchronising them with the control calls made on the UI thread. A callback that runs between the two statements of `changeUIState` (set the state, then notify) can leave observers believing a state the player no longer has; the model does not capture such interleavings.
- A call from the player that arrives when the manager has no player (after release) fails in the source on the null `mPlayer`, except `onDurationChanged`. The model lets such a call change nothing (`Session.Receive`). The exception itself is not modelled.
- A prepare that finishes after `stop` is not dropped. `stop` only queues the engine release and keeps the player, and `onPrepared` reports PLAYING without a guard. Playback then returns to PLAYING with no owner and no url. The model follows the source here (`Session.PreparedAfterStop`). This needs the prepared report to arrive before the media thread has run the release that stop queued.
- A seek that completes at or past the end of the stream reports nothing. After a seek made while playing, the state then stays PLAYING_BUFFERING_START and no further message is sent. The model follows the source here (`Session.SeekWhilePlaying`, `Manager.VideoPlayerManager.EngineSeekComplete`).
- The manager does not know which player a callback comes from. A callback from a player released and since replaced acts on the new player, in the source as in the model.
- The double-checked locking in `getInstance` and `loadConfig`. The manager is one object. `EnsurePlayer` models the recreation of a dropped player.
- `VideoPlayerConfig`, the player factory and the cache proxy. Caching on or off is a constant of the manager. `getProxyUrl` is a function parameter of `Start`. `isCached` is not modelled.
- `ViewGroup.removeView`. A view is an identity. Whether it has a parent is a parameter of the calls that ask. Taking it out of its parent is not recorded.
- `TextureView` and `SurfaceTexture` themselves. Listener registration and surface release appear only as effects.
- `addObserver`/`removeObserver` and `java.util.Observable` delivery. Observers are the sequence of delivered messages, and no observer list is kept.
- Logging (`Utils.log`, `Log.i`, `Log.d`, `setEnableLog`). The empty stubs (`setAutoPlay`, `setRepeat`, `setPlaySpeed`, `setPlayingCache`, `setNetworkTimeout`, `reset`, `setVolume`, `getVolume`, `onInfo`, `onBufferingUpdate`) are not modelled.
- `getCurrentPosition` and `getDuration`: these ask the engine. Their values are parameters wherever the source reads them.
- `MediaPlayer.MediaVideoPlayer.OnError`: the error text "Play error, what=…, extra=…" is not built. The call carries the two codes instead, because the manager uses the text only for logging.
- `ScreenViewState` is not part of this model. The screen state is an integer, its normal value is taken to be 0, and `isNormal` is taken to be equality with it.
- `getState()`, which `AbsBaseVideoPlayer` calls in `onSurfaceTextureAvailable` and `isPlaying`, is defined in none of the three classes. The model takes it to return `mState`, as `MediaVideoPlayer.getPlayerState` does.
- `VideoPlayerState` is not part of this model. Its integer constants are the seven constructors of `State`.
- The control methods require a player. In the source they dereference `mPlayer`, which fails after `release` unless the caller goes through `getInstance`. `Session.Apply` models a call made through `getInstance`.
- Binding a new surface while another is held: the source releases the held surface only when the view is cleared (`setTextureView(null)`), never when a different view is bound. The model follows the source (`MediaPlayer.BindingNeverReleases`).

=== FILE: abs_base_video_player.dfy ===
/** The decisions AbsBaseVideoPlayer makes from its state alone: whether the
    player counts as playing, and whether a newly available surface starts
    the deferred prepare. The fields and the surface-binding methods of the
    base class are part of MediaPlayer.MediaVideoPlayer. */
module AbsBasePlayer {
  import opened PlayerTypes

  /** The state a newly constructed player starts in. */
  const InitialState: State := Normal

  /** isPlaying: a playing state, and the engine's position is still short of
      the duration it reports. */
  predicate IsPlaying(state: State, position: int, duration: int) {
    (state == Playing || state == PlayingBufferingStart) && position < duration
  }

  /** The guard of onSurfaceTextureAvailable: prepare only when no surface was
      held yet and playback has not gone past loading. */
  predicate PreparesOnAvailable(held: Option<Surface>, state: State) {
    held.None? && (state == Normal || state == Loading)
  }

  /** At or past the end of the stream the player is never playing, whatever
      its state says. */
  lemma AtEndNeverPlaying(state: State, position: int, duration: int)
    requires position >= duration
    ensures !IsPlaying(state, position, duration)
  {
  }
}

=== FILE: media_video_player.dfy ===
/** MediaVideoPlayer, the player built on the platform media engine, with the
    fields and surface handling it inherits from AbsBaseVideoPlayer.

    The engine itself is outside the model: what the player asks of it is
    appended to `effects`, and what it reports (current position, duration)
    comes in as parameters. The play callback is the manager; instead of
    calling it, each engine listener returns the calls it makes on the
    callback, in order. */
module MediaPlayer {
  import opened PlayerTypes
  import AbsBasePlayer

  /** The effects of replacing the bound view `was` (holding `held`) by `view`:
      the held surface is released only when the view is cleared, then the
      previous view stops reporting to the player, then the new view starts. */
  function RebindEffects(was: Option<TextureView>, held: Option<Surface>, view: Option<TextureView>): (effects: seq<Effect>) {
    (if view.None? && held.Some? then [SurfaceReleased(held.value)] else [])
    + (if was.Some? then [ListenerCleared(was.value.id)] else [])
    + (if view.Some? then [ListenerSet(view.value.id)] else [])
  }

  /** Clearing the view releases the held surface before anything else. */
  lemma ClearingReleasesFirst(was: Option<TextureView>, held: Surface)
    ensures RebindEffects(was, Some(held), None)[0] == SurfaceReleased(held)
    ensures SurfaceReleased(held) !in RebindEffects(was, Some(held), None)[1..]
  {
  }

  /** Binding a view never releases a surface, and registers the player on it last. */
  lemma BindingNeverReleases(was: Option<TextureView>, held: Option<Surface>, view: TextureView)
    ensures forall s :: SurfaceReleased(s) !in RebindEffects(was, held, Some(view))
    ensures RebindEffects(was, held, Some(view))[|RebindEffects(was, held, Some(view))| - 1] == ListenerSet(view.id)
  {
  }

  /** Two surfaces become available one after the other: the first one is
      then held, so only the first can queue the prepare. */
  method TwoSurfacesPrepareOnce(p: MediaVideoPlayer, s1: Surface, s2: Surface, width: int, height: int)
    modifies p`surface, p`effects
    ensures p.surface == Some(s2)
    ensures p.effects == old(p.effects) + [EngineSurfaceSet(s1)]
                         + (if AbsBasePlayer.PreparesOnAvailable(old(p.surface), p.state) then [PrepareQueued] else [])
                         + [EngineSurfaceSet(s2)]
    // a corollary of the exact effects above, spelled out: no prepare after the second surface is handed over
    ensures PrepareQueued !in p.effects[|old(p.effects)| + 2..]
  {
    p.OnSurfaceTextureAvailable(s1, width, height);
    p.OnSurfaceTextureAvailable(s2, width, height);
  }

  class MediaVideoPlayer {
    var state: State                     // mState
    var url: Url                         // mUrl: the url handed to the engine
    var hasCallback: bool                // mPlayCallback != null
    var textureView: Option<TextureView> // mTextureView
    var surface: Option<Surface>         // mSurfaceTexture
    var effects: seq<Effect>

    constructor ()
      ensures state == AbsBasePlayer.InitialState && url == None && !hasCallback
      ensures textureView == None && surface == None && effects == []
    {
      state := AbsBasePlayer.InitialState;
      url := None;
      hasCallback := false;
      textureView := None;
      surface := None;
      effects := [];
    }

    method SetPlayCallback()
      modifies this`hasCallback
      ensures hasCallback
    {
      hasCallback := true;
    }

    /** AbsBaseVideoPlayer.isPlaying, given the engine's position and duration. */
    function IsPlaying(position: int, duration: int): (playing: bool)
      reads this
    {
      AbsBasePlayer.IsPlaying(state, position, duration)
    }

    method SetPlayerState(s: State)
      modifies this`state
      ensures state == s
    {
      state := s;
    }

    method GetPlayerState() returns (s: State)
      ensures s == state
    {
      s := state;
    }

    /** start(url) only records the url; preparing waits for a surface. */
    method Start(u: Url)
      modifies this`url
      ensures url == u
    {
      url := u;
    }

    method Play()
      modifies this`effects
      ensures effects == old(effects) + [EngineStarted]
    {
      effects := effects + [EngineStarted];
    }

    method Resume()
      modifies this`effects
      ensures effects == old(effects) + [EngineStarted]
    {
      effects := effects + [EngineStarted];
    }

    /** The engine is paused only from the playing state. */
    method Pause()
      modifies this`effects
      ensures state == Playing ==> effects == old(effects) + [EnginePaused]
      ensures state != Playing ==> effects == old(effects)
    {
      if state == Playing {
        effects := effects + [EnginePaused];
      }
    }

    method Stop()
      modifies this`effects
      ensures effects == old(effects) + [ReleaseQueued]
    {
      effects := effects + [ReleaseQueued];
    }

    method Release()
      modifies this`effects
      ensures effects == old(effects) + [ReleaseQueued]
    {
      effects := effects + [ReleaseQueued];
    }

    method SeekTo(position: int)
      modifies this`effects
      ensures effects == old(effects) + [EngineSeek(position)]
    {
      effects := effects + [EngineSeek(position)];
    }

    method Prepare()
      modifies this`effects
      ensures effects == old(effects) + [PrepareQueued]
    {
      effects := effects + [PrepareQueued];
    }

    /** AbsBaseVideoPlayer.setTextureView: unhook the previous view, forget the
        surface, hook the new view if there is one. */
    method BaseSetTextureView(view: Option<TextureView>)
      modifies this`textureView, this`surface, this`effects
      ensures textureView == view && surface == None
      ensures effects == old(effects) + RebindEffects(old(textureView), None, view)
    {
      if textureView.Some? {
        effects := effects + [ListenerCleared(textureView.value.id)];
      }
      surface := None;
      textureView := view;
      if view.Some? {
        effects := effects + [ListenerSet(view.value.id)];
      }
    }

    /** The override: clearing the view first releases the held surface. */
    method SetTextureView(view: Option<TextureView>)
      modifies this`textureView, this`surface, this`effects
      ensures textureView == view && surface == None
      ensures effects == old(effects) + RebindEffects(old(textureView), old(surface), view)
    {
      if view.None? && surface.Some? {
        effects := effects + [SurfaceReleased(surface.value)];
      }
      BaseSetTextureView(view);
    }

    /** AbsBaseVideoPlayer.onSurfaceTextureAvailable: the first surface of a
        player that has not started playing triggers the deferred prepare. */
    method BaseOnSurfaceTextureAvailable(s: Surface, width: int, height: int)
      modifies this`surface, this`effects
      ensures surface == Some(s)
      ensures AbsBasePlayer.PreparesOnAvailable(old(surface), state) ==> effects == old(effects) + [PrepareQueued]
      ensures !AbsBasePlayer.PreparesOnAvailable(old(surface), state) ==> effects == old(effects)
    {
      if surface.None? && (state == Normal || state == Loading) {
        Prepare();
      }
      surface := Some(s);
    }

    /** The override hands the surface to the engine before the base logic. */
    method OnSurfaceTextureAvailable(s: Surface, width: int, height: int)
      modifies this`surface, this`effects
      ensures surface == Some(s)
      ensures effects == old(effects) + [EngineSurfaceSet(s)]
                         + (if AbsBasePlayer.PreparesOnAvailable(old(surface), state) then [PrepareQueued] else [])
    {
      effects := effects + [EngineSurfaceSet(s)];
      BaseOnSurfaceTextureAvailable(s, width, height);
    }

    method OnSurfaceTextureSizeChanged(s: Surface, width: int, height: int)
      ensures unchanged(this)
    {
    }

    method OnSurfaceTextureUpdated(s: Surface)
      ensures unchanged(this)
    {
    }

    /** Returns false: the player, not the view, releases the surface. */
    method OnSurfaceTextureDestroyed(s: Surface) returns (viewReleases: bool)
      ensures !viewReleases
    {
      viewReleases := false;
    }

    /** onPrepared reports the duration, then the playing state, then starts
        the engine. */
    method OnPrepared(duration: int) returns (calls: seq<PlayCallbackCall>)
      modifies this`effects
      ensures hasCallback ==> calls == [DurationChanged(duration), PlayStateChanged(Playing)]
      ensures !hasCallback ==> calls == []
      ensures effects == old(effects) + [EngineStarted]
    {
      calls := [];
      if hasCallback {
        calls := calls + [DurationChanged(duration)];
        calls := calls + [PlayStateChanged(Playing)];
      }
      Play();
    }

    /** A finished seek reports playing again only while the player is playing. */
    method OnSeekComplete(position: int, duration: int) returns (calls: seq<PlayCallbackCall>)
      ensures calls != [] <==> hasCallback && AbsBasePlayer.IsPlaying(state, position, duration)
      ensures calls != [] ==> calls == [PlayStateChanged(Playing)]
    {
      calls := [];
      if hasCallback && IsPlaying(position, duration) {
        calls := [PlayStateChanged(Playing)];
      }
    }

    method OnCompletion() returns (calls: seq<PlayCallbackCall>)
      ensures hasCallback ==> calls == [Complete]
      ensures !hasCallback ==> calls == []
    {
      calls := [];
      if hasCallback {
        calls := [Complete];
      }
    }

    /** onError reports the error once and returns false (not handled). */
    method OnError(what: int, extra: int) returns (calls: seq<PlayCallbackCall>, handled: bool)
      ensures hasCallback ==> calls == [EngineError(what, extra)]
      ensures !hasCallback ==> calls == []
      ensures !handled
    {
      calls := [];
      if hasCallback {
        calls := [EngineError(what, extra)];
      }
      handled := false;
    }
  }
}

=== FILE: player_types.dfy ===
/** Values shared by the players and the manager: playback states, the
    messages published to observers, the calls a player makes on its play
    callback, and the side effects a player has on the media engine and on
    the view hierarchy. */
module PlayerTypes {

  datatype Option<+T> = None | Some(value: T)

  /** The playback states of VideoPlayerState (STATE_NORMAL ... STATE_AUTO_COMPLETE). */
  datatype State =
    | Normal
    | Loading
    | Playing
    | PlayingBufferingStart
    | Paused
    | Error
    | AutoComplete

  /** A Java String that may be null. */
  type Url = Option<string>

  /** The owner hash the manager keeps when no list item owns playback. */
  const NoOwner: int := -1

  /** ScreenViewState.SCREEN_STATE_NORMAL: the inline (not expanded) presentation. */
  const ScreenStateNormal: int := 0

  /** ScreenViewState.isNormal. */
  predicate IsNormalScreen(screen: int) {
    screen == ScreenStateNormal
  }

  /** The messages the manager's observable delivers to its observers. */
  datatype Message =
    | UIState(hash: int, url: Url, state: State)
    | Duration(hash: int, url: Url, duration: int)
    | BackPressed(screen: int, hash: int, url: Url)

  /** One call a player makes on its IVideoPlayer.PlayCallback. The error
      call carries the engine's two error codes, from which the player
      formats its error text. */
  datatype PlayCallbackCall =
    | DurationChanged(duration: int)
    | PlayStateChanged(state: State)
    | Complete
    | EngineError(what: int, extra: int)

  /** A TextureView, seen as an identity. Whether it sits in a parent view is
      asked at the time of each call that depends on it. */
  datatype TextureView = TextureView(id: int)

  /** A SurfaceTexture, seen as an identity. */
  type Surface = int

  /** What a player does to the media engine and to the views it touches. */
  datatype Effect =
    | ListenerCleared(view: int)    // setSurfaceTextureListener(null) on a view
    | ListenerSet(view: int)        // setSurfaceTextureListener(player) on a view
    | SurfaceReleased(surface: Surface)
    | EngineSurfaceSet(surface: Surface)
    | PrepareQueued                 // MSG_PREPARE posted to the media thread
    | ReleaseQueued                 // MSG_RELEASE posted to the media thread
    | EngineStarted
    | EnginePaused
    | EngineSeek(position: int)
}

=== FILE: session.dfy ===
/** The playback session that VideoPlayerManager keeps, as values: what its
    callers and observers can see of it, each public operation and engine
    callback as a step, and the properties of whole call sequences.
    Manager.VideoPlayerManager is proved to perform exactly these steps. */
module Session {
  import opened PlayerTypes
  import AbsBasePlayer

  /** What callers and observers can see of the manager. */
  datatype Snapshot = Snapshot(
    hasPlayer: bool,    // a player instance exists
    state: State,       // the player's state; Normal when there is no player
    url: Url,           // the url the caller asked to play
    hash: int,          // the owner hash, NoOwner when no list item owns playback
    screen: int,        // the screen state
    log: seq<Message>)  // every message delivered to observers so far

  /** The manager's public operations and the calls its player makes on it.
      A seek carries the engine's position and duration at the time of the
      call, which decide whether the player counts as playing. */
  datatype Op =
    | Start(startUrl: Url, owner: int)
    | Play
    | Resume
    | Pause
    | Stop
    | Release
    | SeekTo(target: int, position: int, duration: int)
    | Callback(call: PlayCallbackCall)
    | OnBackPressed
    | SetScreenState(newScreen: int)

  /** The operations that go through the player instance; the others only
      touch the manager's own fields. */
  predicate UsesPlayer(op: Op) {
    !(op.OnBackPressed? || op.SetScreenState? || (op.Callback? && op.call.DurationChanged?))
  }

  /** changeUIState: set the player's state, then tell the observers. */
  function ChangeUIState(s: Snapshot, st: State): (t: Snapshot) {
    s.(state := st, log := s.log + [UIState(s.hash, s.url, st)])
  }

  /** The session fields stop and release clear. */
  function ClearSession(s: Snapshot): (t: Snapshot) {
    s.(hash := NoOwner, url := None, screen := ScreenStateNormal)
  }

  /** One operation on a manager that has a player when the operation needs one. */
  function Step(s: Snapshot, op: Op): (t: Snapshot)
    requires s.hasPlayer || !UsesPlayer(op)
  {
    match op
    case Start(u, h) => ChangeUIState(s.(url := u, hash := h), Loading)
    case Play => ChangeUIState(s, Playing)
    case Resume => if s.state == Paused then ChangeUIState(s, Playing) else s
    case Pause => if s.state == Playing then ChangeUIState(s, Paused) else s
    case Stop => ClearSession(ChangeUIState(s, Normal))
    case Release => ClearSession(s.(hasPlayer := false, state := Normal))
    case SeekTo(_, position, duration) =>
      if AbsBasePlayer.IsPlaying(s.state, position, duration) then ChangeUIState(s, PlayingBufferingStart) else s
    case Callback(c) =>
      (match c
       case DurationChanged(d) => s.(log := s.log + [Duration(s.hash, s.url, d)])
       case PlayStateChanged(st) => ChangeUIState(s, st)
       case Complete => ChangeUIState(s, AutoComplete)
       case EngineError(_, _) => ChangeUIState(s, Error))
    case OnBackPressed =>
      if IsNormalScreen(s.screen) then s else s.(log := s.log + [BackPressed(s.screen, s.hash, s.url)])
    case SetScreenState(x) => s.(screen := x)
  }

  /** getInstance: a released player is replaced by a new one in the initial state. */
  function Instance(s: Snapshot): (t: Snapshot)
    ensures t.hasPlayer
  {
    if s.hasPlayer then s else s.(hasPlayer := true, state := AbsBasePlayer.InitialState)
  }

  /** A call the player makes on the manager, which holds no reference back to
      the player that made it. Without a player, every call but
      onDurationChanged reaches the missing player and fails before it
      changes anything. */
  function Receive(s: Snapshot, c: PlayCallbackCall): (t: Snapshot) {
    if s.hasPlayer || c.DurationChanged? then Step(s, Callback(c)) else s
  }

  /** A caller's `VideoPlayerManager.getInstance().op(...)`, or a call from
      the player, which does not go through getInstance. */
  function Apply(s: Snapshot, op: Op): (t: Snapshot) {
    if op.Callback? then Receive(s, op.call) else Step(Instance(s), op)
  }

  /** A sequence of calls, in order. */
  function Run(s: Snapshot, ops: seq<Op>): (t: Snapshot)
    decreases |ops|
  {
    if ops == [] then s else Run(Apply(s, ops[0]), ops[1..])
  }

  /** hasViewPlaying. */
  predicate HasViewPlaying(s: Snapshot) {
    s.hash != NoOwner
  }

  /** The snapshot a manager without a player has: state Normal. */
  predicate Wf(s: Snapshot) {
    s.hasPlayer || s.state == Normal
  }

  /** The state an observer last heard of (Normal before any UI-state message). */
  function ObservedState(log: seq<Message>): (st: State)
    decreases |log|
  {
    if log == [] then Normal
    else if log[|log| - 1].UIState? then log[|log| - 1].state
    else ObservedState(log[..|log| - 1])
  }

  /** The observers' view agrees with the player's state. */
  predicate Synced(s: Snapshot) {
    Wf(s) && ObservedState(s.log) == s.state
  }

  /** The operations that can change which list item owns playback. */
  predicate ChangesOwner(op: Op) {
    op.Start? || op.Stop? || op.Release?
  }

  // ---------------------------------------------------------------------
  // One call

  /** A call delivers at most one message, appended after the earlier ones. */
  lemma ApplyAppendsAtMostOne(s: Snapshot, op: Op)
    ensures s.log <= Apply(s, op).log
    ensures |Apply(s, op).log| <= |s.log| + 1
  {
  }

  /** A UI-state message is the last word on the observed state; other
      messages do not change it. */
  lemma {:induction false} ObservedAfter(log: seq<Message>, m: Message)
    ensures ObservedState(log + [m]) == if m.UIState? then m.state else ObservedState(log)
  {
    assert (log + [m])[..|log|] == log;
  }

  /** Every call except release keeps the observers in step with the player. */
  lemma {:induction false} ApplyKeepsSync(s: Snapshot, op: Op)
    requires Synced(s) && !op.Release?
    ensures Synced(Apply(s, op))
  {
    match op
    case Start(u, h) => ObservedAfter(s.log, UIState(h, u, Loading));
    case Play => ObservedAfter(s.log, UIState(s.hash, s.url, Playing));
    case Resume => ObservedAfter(s.log, UIState(s.hash, s.url, Playing));
    case Pause => ObservedAfter(s.log, UIState(s.hash, s.url, Paused));
    case Stop => ObservedAfter(s.log, UIState(s.hash, s.url, Normal));
    case SeekTo(_, _, _) => ObservedAfter(s.log, UIState(s.hash, s.url, PlayingBufferingStart));
    case Callback(c) =>
      if s.hasPlayer || c.DurationChanged? {
        match c
        case DurationChanged(d) => ObservedAfter(s.log, Duration(s.hash, s.url, d));
        case PlayStateChanged(st) => ObservedAfter(s.log, UIState(s.hash, s.url, st));
        case Complete => ObservedAfter(s.log, UIState(s.hash, s.url, AutoComplete));
        case EngineError(_, _) => ObservedAfter(s.log, UIState(s.hash, s.url, Error));
      }
    case OnBackPressed => ObservedAfter(s.log, BackPressed(s.screen, s.hash, s.url));
    case SetScreenState(_) =>
  }

  /** After stop, release, an engine error or the end of the stream, and after
      pausing a playing player, the player is not playing, wherever the engine
      stands. */
  lemma HaltedNeverPlaying(s: Snapshot, op: Op, position: int, duration: int)
    requires Wf(s)
    requires || op.Stop? || op.Release? || op == Callback(Complete)
             || (op.Callback? && op.call.EngineError?)
             || (op.Pause? && Instance(s).state == Playing)
    ensures !AbsBasePlayer.IsPlaying(Apply(s, op).state, position, duration)
  {
  }

  /** A call from the player that reaches a manager without a player changes
      nothing, except that onDurationChanged still reaches the observers; no
      player is created. */
  lemma LateCallback(s: Snapshot, c: PlayCallbackCall)
    requires !s.hasPlayer
    ensures !Apply(s, Callback(c)).hasPlayer
    ensures !c.DurationChanged? ==> Apply(s, Callback(c)) == s
    ensures c.DurationChanged? ==> Apply(s, Callback(c)) == s.(log := s.log + [Duration(s.hash, s.url, c.duration)])
  {
  }

  /** Release resets the state to Normal without telling the observers, so an
      observer that last heard of another state keeps believing it. */
  lemma ReleaseIsSilent(s: Snapshot)
    requires Synced(s) && s.state != Normal
    ensures Apply(s, Release).log == s.log
    ensures Apply(s, Release).state == Normal && !Apply(s, Release).hasPlayer
    ensures !Synced(Apply(s, Release))
  {
  }

  /** Stop twice: both end in the cleared Normal session; the first message
      names the owner being stopped, the second no owner. */
  lemma StopTwice(s: Snapshot)
    ensures var t := Apply(Apply(s, Stop), Stop);
      && t.state == Normal && t.hash == NoOwner && t.url == None && t.screen == ScreenStateNormal
      && t.log == s.log + [UIState(s.hash, s.url, Normal), UIState(NoOwner, None, Normal)]
      && !HasViewPlaying(t)
  {
  }

  /** Release drops the player; the next getInstance brings back a player in
      the initial state, with no owner and the observers' log untouched. */
  lemma ReleaseThenInstance(s: Snapshot)
    ensures !Apply(s, Release).hasPlayer
    ensures Instance(Apply(s, Release)) == Snapshot(true, Normal, None, NoOwner, ScreenStateNormal, s.log)
  {
  }

  // ---------------------------------------------------------------------
  // Sequences of calls

  /** Messages are only ever appended, at most one per call. */
  lemma {:induction false} RunAppendsOnly(s: Snapshot, ops: seq<Op>)
    ensures s.log <= Run(s, ops).log
    ensures |Run(s, ops).log| <= |s.log| + |ops|
    decreases |ops|
  {
    if ops != [] {
      var t := Apply(s, ops[0]);
      ApplyAppendsAtMostOne(s, ops[0]);
      RunAppendsOnly(t, ops[1..]);
    }
  }

  /** Until the next start, stop or release the same list item owns playback
      with the same url. */
  lemma {:induction false} OwnerStable(s: Snapshot, ops: seq<Op>)
    requires forall i :: 0 <= i < |ops| ==> !ChangesOwner(ops[i])
    ensures Run(s, ops).hash == s.hash && Run(s, ops).url == s.url
    decreases |ops|
  {
    if ops != [] {
      assert !ChangesOwner(ops[0]);
      OwnerStable(Apply(s, ops[0]), ops[1..]);
    }
  }

  /** After stop or release no list item owns playback until the next start. */
  lemma {:induction false} UnownedUntilStart(s: Snapshot, ops: seq<Op>)
    requires s.hash == NoOwner && s.url == None
    requires forall i :: 0 <= i < |ops| ==> !ops[i].Start?
    ensures !HasViewPlaying(Run(s, ops)) && Run(s, ops).url == None
    decreases |ops|
  {
    if ops != [] {
      assert !ops[0].Start?;
      UnownedUntilStart(Apply(s, ops[0]), ops[1..]);
    }
  }

  /** Without a release, the observers always know the player's state. */
  lemma {:induction false} RunKeepsSync(s: Snapshot, ops: seq<Op>)
    requires Synced(s)
    requires forall i :: 0 <= i < |ops| ==> !ops[i].Release?
    ensures Synced(Run(s, ops))
    decreases |ops|
  {
    if ops != [] {
      ApplyKeepsSync(s, ops[0]);
      RunKeepsSync(Apply(s, ops[0]), ops[1..]);
    }
  }

  // ---------------------------------------------------------------------
  // Scenarios: the player's callback calls delivered to the manager

  /** The manager's view of a call list a player returns. */
  function Delivered(calls: seq<PlayCallbackCall>): (ops: seq<Op>)
    ensures |ops| == |calls|
    ensures forall i :: 0 <= i < |calls| ==> ops[i] == Callback(calls[i])
  {
    if calls == [] then [] else [Callback(calls[0])] + Delivered(calls[1..])
  }

  /** start, then the engine is prepared: the observers hear loading, the
      duration, then playing, all for the caller's url and owner. */
  lemma {:induction false} StartThenPrepared(s: Snapshot, u: Url, h: int, d: int)
    ensures var t := Run(s, [Start(u, h)] + Delivered([DurationChanged(d), PlayStateChanged(Playing)]));
      && t.state == Playing && t.hash == h && t.url == u
      && t.log == s.log + [UIState(h, u, Loading), Duration(h, u, d), UIState(h, u, Playing)]
  {
    var ops := [Start(u, h)] + Delivered([DurationChanged(d), PlayStateChanged(Playing)]);
    assert ops == [Start(u, h), Callback(DurationChanged(d)), Callback(PlayStateChanged(Playing))];
    var s1 := Apply(s, ops[0]);
    var s2 := Apply(s1, ops[1]);
    var s3 := Apply(s2, ops[2]);
    assert ops[1..][1..][1..] == [];
    assert Run(s, ops) == Run(s1, ops[1..]) == Run(s2, ops[1..][1..]) == Run(s3, []);
  }

  /** The engine finishes preparing after release: the observers hear the
      duration for no owner, and no player comes back to life. */
  lemma {:induction false} PreparedAfterRelease(s: Snapshot, d: int)
    ensures var t := Run(s, [Release] + Delivered([DurationChanged(d), PlayStateChanged(Playing)]));
      && !t.hasPlayer && t.state == Normal && t.hash == NoOwner && t.url == None
      && t.log == s.log + [Duration(NoOwner, None, d)]
  {
    var ops := [Release] + Delivered([DurationChanged(d), PlayStateChanged(Playing)]);
    assert ops == [Release, Callback(DurationChanged(d)), Callback(PlayStateChanged(Playing))];
    var s1 := Apply(s, ops[0]);
    var s2 := Apply(s1, ops[1]);
    var s3 := Apply(s2, ops[2]);
    assert ops[1..][1..][1..] == [];
    assert Run(s, ops) == Run(s1, ops[1..]) == Run(s2, ops[1..][1..]) == Run(s3, []);
  }

  /** The engine finishes preparing after stop: stop keeps the player and
      only queues the engine release, so the prepared calls bring playback
      back to PLAYING, announced for no owner. */
  lemma {:induction false} PreparedAfterStop(s: Snapshot, d: int)
    ensures var t := Run(s, [Stop] + Delivered([DurationChanged(d), PlayStateChanged(Playing)]));
      && t.hasPlayer && t.state == Playing && t.hash == NoOwner && t.url == None
      && t.log == s.log + [UIState(s.hash, s.url, Normal), Duration(NoOwner, None, d), UIState(NoOwner, None, Playing)]
  {
    var ops := [Stop] + Delivered([DurationChanged(d), PlayStateChanged(Playing)]);
    assert ops == [Stop, Callback(DurationChanged(d)), Callback(PlayStateChanged(Playing))];
    var s1 := Apply(s, ops[0]);
    var s2 := Apply(s1, ops[1]);
    var s3 := Apply(s2, ops[2]);
    assert ops[1..][1..][1..] == [];
    assert Run(s, ops) == Run(s1, ops[1..]) == Run(s2, ops[1..][1..]) == Run(s3, []);
  }

  /** A seek while playing shows buffering; the seek completing while the
      player is still short of the end brings it back to playing. A seek
      that completes at or past the end (p2 >= d2) reports nothing, so the
      state stays PLAYING_BUFFERING_START. */
  lemma {:induction false} SeekWhilePlaying(s: Snapshot, target: int, p: int, d: int, p2: int, d2: int)
    requires s.hasPlayer && s.state == Playing && p < d
    ensures var t := Apply(s, SeekTo(target, p, d));
      && t.state == PlayingBufferingStart
      && (p2 < d2 <==> AbsBasePlayer.IsPlaying(t.state, p2, d2))
      && Apply(t, Callback(PlayStateChanged(Playing))).state == Playing
      && Apply(t, Callback(PlayStateChanged(Playing))).log
         == s.log + [UIState(s.hash, s.url, PlayingBufferingStart), UIState(s.hash, s.url, Playing)]
  {
  }

  /** Pause then resume returns to playing with the same session, and the
      observers hear both changes. */
  lemma PauseThenResume(s: Snapshot)
    requires s.hasPlayer && s.state == Playing
    ensures Apply(Apply(s, Pause), Resume)
         == s.(log := s.log + [UIState(s.hash, s.url, Paused), UIState(s.hash, s.url, Playing)])
  {
  }
}

=== FILE: video_player_manager.dfy ===
/** VideoPlayerManager: the session controller between the list UI and the
    player. It owns one player (dropped by release, recreated by
    getInstance), remembers which list item (owner hash) plays which url,
    turns every UI-state change into a message for its observers, and is the
    play callback of its player.

    Observers are modelled by the sequence of messages delivered to them.
    Each method is proved to perform the matching Session.Step on Snap(). */
module Manager {
  import opened PlayerTypes
  import AbsBasePlayer
  import opened MediaPlayer
  import opened Session

  /** removeTextureView: the bound view is taken out of its parent and
      cleared from the player only when, at that moment, it has a parent. */
  predicate Removable(view: Option<TextureView>, viewHasParent: bool) {
    view.Some? && viewHasParent
  }

  /** What removeTextureView asks of the player. */
  function RemovalEffects(view: Option<TextureView>, held: Option<Surface>, viewHasParent: bool): (effects: seq<Effect>) {
    if Removable(view, viewHasParent) then RebindEffects(view, held, None) else []
  }

  class VideoPlayerManager {
    var player: MediaVideoPlayer?   // mPlayer, null after release
    var videoUrl: Url               // mVideoUrl
    var observerHash: int           // mObserverHash
    var screenState: int            // mScreenState
    var messages: seq<Message>      // what mPlayStateObservable delivered
    const cacheEnabled: bool        // VideoPlayerConfig.isCacheEnable()

    /** The player reports to this manager. */
    ghost predicate Valid()
      reads this, player
    {
      player != null ==> player.hasCallback
    }

    ghost function Snap(): (snap: Snapshot)
      reads this, player
    {
      Snapshot(player != null, if player != null then player.state else Normal,
               videoUrl, observerHash, screenState, messages)
    }

    constructor (cacheEnable: bool)
      ensures Valid() && player != null && fresh(player)
      ensures Snap() == Snapshot(true, Normal, None, NoOwner, ScreenStateNormal, [])
      ensures cacheEnabled == cacheEnable
      ensures player.url == None && player.textureView == None && player.surface == None && player.effects == []
    {
      cacheEnabled := cacheEnable;
      var p := new MediaVideoPlayer();
      p.SetPlayCallback();
      player := p;
      videoUrl := None;
      observerHash := NoOwner;
      screenState := ScreenStateNormal;
      messages := [];
    }

    /** The second half of getInstance: a released player is recreated. */
    method EnsurePlayer()
      requires Valid()
      modifies this`player
      ensures Valid() && player != null
      ensures Snap() == Instance(old(Snap()))
      ensures old(player) != null ==> player == old(player)
      ensures old(player) == null ==>
        (fresh(player) && player.url == None
         && player.textureView == None && player.surface == None && player.effects == [])
    {
      if player == null {
        var p := new MediaVideoPlayer();
        p.SetPlayCallback();
        player := p;
      }
    }

    /** changeUIState. */
    method ChangeUIState(st: State)
      requires player != null
      modifies player`state, this`messages
      ensures Snap() == Session.ChangeUIState(old(Snap()), st)
    {
      player.SetPlayerState(st);
      messages := messages + [UIState(observerHash, videoUrl, st)];
    }

    /** start: record the caller's url and owner, announce loading, and hand
        the engine the url, through the cache proxy when caching is on. */
    method Start(url: Url, hash: int, proxyUrl: Url -> Url)
      requires Valid() && player != null
      modifies this`videoUrl, this`observerHash, this`messages, player`state, player`url
      ensures Valid()
      ensures Snap() == Step(old(Snap()), Op.Start(url, hash))
      ensures player.state == Loading && videoUrl == url && observerHash == hash
      ensures messages == old(messages) + [UIState(hash, url, Loading)]
      ensures player.url == if cacheEnabled then proxyUrl(url) else url
    {
      BindPlayerView(url, hash);
      OnPlayStateChanged(Loading);
      var wrapperUrl := url;
      if cacheEnabled {
        wrapperUrl := proxyUrl(url);
      }
      player.Start(wrapperUrl);
    }

    method BindPlayerView(url: Url, hash: int)
      modifies this`videoUrl, this`observerHash
      ensures videoUrl == url && observerHash == hash
    {
      videoUrl := url;
      observerHash := hash;
    }

    method Play()
      requires Valid() && player != null
      modifies this`messages, player`state, player`effects
      ensures Valid()
      ensures Snap() == Step(old(Snap()), Op.Play)
      ensures player.state == Playing
      ensures messages == old(messages) + [UIState(observerHash, videoUrl, Playing)]
      ensures player.effects == old(player.effects) + [EngineStarted]
    {
      player.Play();
      OnPlayStateChanged(Playing);
    }

    /** resume plays only a paused player. */
    method Resume()
      requires Valid() && player != null
      modifies this`messages, player`state, player`effects
      ensures Valid()
      ensures Snap() == Step(old(Snap()), Op.Resume)
      ensures old(player.state) == Paused ==>
        (player.state == Playing
         && messages == old(messages) + [UIState(observerHash, videoUrl, Playing)]
         && player.effects == old(player.effects) + [EngineStarted])
      ensures old(player.state) != Paused ==>
        (player.state == old(player.state) && messages == old(messages) && player.effects == old(player.effects))
    {
      var st := GetState();
      if st == Paused {
        Play();
      }
    }

    /** pause acts only on a playing player. */
    method Pause()
      requires Valid() && player != null
      modifies this`messages, player`state, player`effects
      ensures Valid()
      ensures Snap() == Step(old(Snap()), Op.Pause)
      ensures old(player.state) == Playing ==>
        (player.state == Paused
         && messages == old(messages) + [UIState(observerHash, videoUrl, Paused)]
         && player.effects == old(player.effects) + [EnginePaused])
      ensures old(player.state) != Playing ==>
        (player.state == old(player.state) && messages == old(messages) && player.effects == old(player.effects))
    {
      var st := GetState();
      if st == Playing {
        player.Pause();
        OnPlayStateChanged(Paused);
      }
    }

    /** stop: announce Normal for the current owner, release the engine,
        detach the view, and clear the session. `viewHasParent` is whether the
        bound view sits in a parent view when stop reaches removeTextureView,
        after the NORMAL message has been delivered. */
    method Stop(viewHasParent: bool)
      requires Valid() && player != null
      modifies this`messages, this`observerHash, this`videoUrl, this`screenState
      modifies player`state, player`effects, player`textureView, player`surface
      ensures Valid()
      ensures Snap() == Step(old(Snap()), Op.Stop)
      ensures player.state == Normal && observerHash == NoOwner && videoUrl == None
      ensures screenState == ScreenStateNormal
      ensures messages == old(messages) + [UIState(old(observerHash), old(videoUrl), Normal)]
      ensures player.effects == old(player.effects) + [ReleaseQueued]
                                + RemovalEffects(old(player.textureView), old(player.surface), viewHasParent)
      ensures Removable(old(player.textureView), viewHasParent) ==> player.textureView == None && player.surface == None
      ensures !Removable(old(player.textureView), viewHasParent) ==>
        player.textureView == old(player.textureView) && player.surface == old(player.surface)
    {
      OnPlayStateChanged(Normal);
      player.Stop();
      RemoveTextureView(viewHasParent);
      observerHash := NoOwner;
      videoUrl := None;
      screenState := ScreenStateNormal;
    }

    /** release: state Normal without a message, detach the view, release the
        engine, drop the player, and clear the session. `viewHasParent` is
        whether the bound view sits in a parent view when release is called. */
    method Release(viewHasParent: bool)
      requires Valid() && player != null
      modifies this`player, this`observerHash, this`videoUrl, this`screenState
      modifies player`state, player`effects, player`textureView, player`surface
      ensures Valid()
      ensures Snap() == Step(old(Snap()), Op.Release)
      ensures player == null && messages == old(messages)
      ensures observerHash == NoOwner && videoUrl == None && screenState == ScreenStateNormal
      ensures old(player).state == Normal
      ensures old(player).effects == old(player.effects)
                                     + RemovalEffects(old(player.textureView), old(player.surface), viewHasParent)
                                     + [ReleaseQueued]
      ensures Removable(old(player.textureView), viewHasParent) ==>
        old(player).textureView == None && old(player).surface == None
      ensures !Removable(old(player.textureView), viewHasParent) ==>
        old(player).textureView == old(player.textureView) && old(player).surface == old(player.surface)
    {
      player.SetPlayerState(Normal);
      RemoveTextureView(viewHasParent);
      player.Release();
      player := null;
      observerHash := NoOwner;
      videoUrl := None;
      screenState := ScreenStateNormal;
    }

    /** removeTextureView: a view that has a parent at the time of the call is
        taken off the player, which releases the surface it held. */
    method RemoveTextureView(viewHasParent: bool)
      requires player != null
      modifies player`textureView, player`surface, player`effects
      ensures player.effects == old(player.effects) + RemovalEffects(old(player.textureView), old(player.surface), viewHasParent)
      ensures Removable(old(player.textureView), viewHasParent) ==> player.textureView == None && player.surface == None
      ensures !Removable(old(player.textureView), viewHasParent) ==>
        player.textureView == old(player.textureView) && player.surface == old(player.surface)
    {
      if player.textureView.Some? && viewHasParent {
        SetTextureView(None);
      }
    }

    method SetTextureView(view: Option<TextureView>)
      requires player != null
      modifies player`textureView, player`surface, player`effects
      ensures player.textureView == view && player.surface == None
      ensures player.effects == old(player.effects) + RebindEffects(old(player.textureView), old(player.surface), view)
    {
      player.SetTextureView(view);
    }

    /** seekTo shows buffering first when the player is playing; the seek
        itself always reaches the engine. */
    method SeekTo(target: int, position: int, duration: int)
      requires Valid() && player != null
      modifies this`messages, player`state, player`effects
      ensures Valid()
      ensures Snap() == Step(old(Snap()), Op.SeekTo(target, position, duration))
      ensures AbsBasePlayer.IsPlaying(old(player.state), position, duration) ==>
        player.state == PlayingBufferingStart
        && messages == old(messages) + [UIState(observerHash, videoUrl, PlayingBufferingStart)]
      ensures !AbsBasePlayer.IsPlaying(old(player.state), position, duration) ==>
        player.state == old(player.state) && messages == old(messages)
      ensures player.effects == old(player.effects) + [EngineSeek(target)]
    {
      var playing := IsPlaying(position, duration);
      if playing {
        OnPlayStateChanged(PlayingBufferingStart);
      }
      player.SeekTo(target);
    }

    /** onError: the engine is released, then the error is announced. */
    method OnError(what: int, extra: int)
      requires Valid() && player != null
      modifies this`messages, player`state, player`effects
      ensures Valid()
      ensures Snap() == Step(old(Snap()), Callback(EngineError(what, extra)))
      ensures player.state == Error
      ensures messages == old(messages) + [UIState(observerHash, videoUrl, Error)]
      ensures player.effects == old(player.effects) + [ReleaseQueued]
    {
      player.Stop();
      ChangeUIState(Error);
    }

    method OnComplete()
      requires Valid() && player != null
      modifies this`messages, player`state
      ensures Valid()
      ensures Snap() == Step(old(Snap()), Callback(Complete))
      ensures player.state == AutoComplete
      ensures messages == old(messages) + [UIState(observerHash, videoUrl, AutoComplete)]
    {
      ChangeUIState(AutoComplete);
    }

    method OnPlayStateChanged(st: State)
      requires player != null
      modifies this`messages, player`state
      ensures Snap() == Step(old(Snap()), Callback(PlayStateChanged(st)))
      ensures player.state == st
      ensures messages == old(messages) + [UIState(observerHash, videoUrl, st)]
    {
      ChangeUIState(st);
    }

    /** onDurationChanged tells the observers the duration and changes no state. */
    method OnDurationChanged(duration: int)
      modifies this`messages
      ensures Snap() == Step(old(Snap()), Callback(DurationChanged(duration)))
      ensures messages == old(messages) + [Duration(observerHash, videoUrl, duration)]
    {
      messages := messages + [Duration(observerHash, videoUrl, duration)];
    }

    /** The manager as its player's play callback: one call, dispatched. */
    method Deliver(call: PlayCallbackCall)
      requires Valid() && player != null
      modifies this`messages, player`state, player`effects
      ensures Valid() && player != null
      ensures Snap() == Step(old(Snap()), Callback(call))
      ensures call.EngineError? ==> player.effects == old(player.effects) + [ReleaseQueued]
      ensures !call.EngineError? ==> player.effects == old(player.effects)
    {
      match call
      case DurationChanged(d) => OnDurationChanged(d);
      case PlayStateChanged(st) => OnPlayStateChanged(st);
      case Complete => OnComplete();
      case EngineError(what, extra) => OnError(what, extra);
    }

    /** The engine reports prepared: the player's duration and playing calls
        reach this manager in order, and the engine starts. */
    method EnginePrepared(duration: int)
      requires Valid() && player != null
      modifies this`messages, player`state, player`effects
      ensures Valid() && player != null
      ensures Snap() == Run(old(Snap()), Delivered([DurationChanged(duration), PlayStateChanged(Playing)]))
      ensures player.state == Playing
      ensures messages == old(messages)
                          + [Duration(observerHash, videoUrl, duration), UIState(observerHash, videoUrl, Playing)]
      ensures player.effects == old(player.effects) + [EngineStarted]
    {
      ghost var s0 := Snap();
      var calls := player.OnPrepared(duration);
      Deliver(calls[0]);
      ghost var s1 := Snap();
      Deliver(calls[1]);
      ghost var ops := Delivered([DurationChanged(duration), PlayStateChanged(Playing)]);
      assert ops == [Callback(calls[0]), Callback(calls[1])];
      assert ops[1..][1..] == [];
      assert Run(s0, ops) == Run(s1, ops[1..]) == Run(Snap(), ops[1..][1..]);
    }

    /** The engine finishes a seek: playing is reported again only while the
        player is playing. */
    method EngineSeekComplete(position: int, duration: int)
      requires Valid() && player != null
      modifies this`messages, player`state, player`effects
      ensures Valid() && player != null
      ensures player.effects == old(player.effects)
      ensures AbsBasePlayer.IsPlaying(old(player.state), position, duration) ==>
        Snap() == Step(old(Snap()), Callback(PlayStateChanged(Playing)))
      ensures !AbsBasePlayer.IsPlaying(old(player.state), position, duration) ==> Snap() == old(Snap())
    {
      var calls := player.OnSeekComplete(position, duration);
      if calls != [] {
        Deliver(calls[0]);
      }
    }

    /** The engine reaches the end of the stream. */
    method EngineCompletion()
      requires Valid() && player != null
      modifies this`messages, player`state, player`effects
      ensures Valid() && player != null
      ensures player.effects == old(player.effects)
      ensures Snap() == Step(old(Snap()), Callback(Complete))
    {
      var calls := player.OnCompletion();
      Deliver(calls[0]);
    }

    /** The engine fails: the error reaches this manager, which releases the
        engine; the player reports the error as not handled. */
    method EngineFailed(what: int, extra: int) returns (handled: bool)
      requires Valid() && player != null
      modifies this`messages, player`state, player`effects
      ensures Valid() && player != null
      ensures Snap() == Step(old(Snap()), Callback(EngineError(what, extra)))
      ensures player.effects == old(player.effects) + [ReleaseQueued]
      ensures !handled
    {
      var calls;
      calls, handled := player.OnError(what, extra);
      Deliver(calls[0]);
    }

    /** onBackPressed is consumed, and announced, only outside the normal screen. */
    method OnBackPressed() returns (consumed: bool)
      modifies this`messages
      ensures Snap() == Step(old(Snap()), Op.OnBackPressed)
      ensures consumed <==> !IsNormalScreen(screenState)
      ensures consumed ==> messages == old(messages) + [BackPressed(screenState, observerHash, videoUrl)]
      ensures !consumed ==> messages == old(messages)
    {
      if IsNormalScreen(screenState) {
        consumed := false;
      } else {
        messages := messages + [BackPressed(screenState, observerHash, videoUrl)];
        consumed := true;
      }
    }

    method SetScreenState(screen: int)
      modifies this`screenState
      ensures Snap() == Step(old(Snap()), Op.SetScreenState(screen))
      ensures screenState == screen
    {
      screenState := screen;
    }

    method HasViewPlaying() returns (b: bool)
      ensures b <==> observerHash != NoOwner
    {
      b := observerHash != NoOwner;
    }

    method IsViewPlaying(viewHash: int) returns (b: bool)
      ensures b <==> viewHash == observerHash
    {
      b := observerHash == viewHash;
    }

    method IsPlaying(position: int, duration: int) returns (b: bool)
      requires player != null
      ensures b <==> (player.state == Playing || player.state == PlayingBufferingStart) && position < duration
    {
      b := player.IsPlaying(position, duration);
    }

    method GetState() returns (st: State)
      requires player != null
      ensures st == player.state
    {
      st := player.GetPlayerState();
    }

    method GetVideoUrl() returns (u: Url)
      ensures u == videoUrl
    {
      u := videoUrl;
    }
  }
}
